=== FILE: README.md ===
# Plait room sessions in Dafny

A model of the back end of Plait, a service where a group of users joins a
shared room to listen to a queue of YouTube / SoundCloud items together. Three
pieces of sequential logic are modelled:

- **The room service** (`src/room/room.service.ts`). Its repositories become
  one immutable `Store`:
  - rooms: a map from room code to `Room`;
  - users: a map from uuid to `User`;
  - contents: a sequence of `Content`, in insertion order.

  Each service method is a pure function over the store:
  - A lookup returns `Result<T, Err>`.
  - An operation that writes returns a `Step`: the store after the call,
    together with the value returned or the error thrown.
  - `leaveRoom` and `removeContent` write before they can throw, so their
    failed `Step`s carry a changed store.

  The errors `NotFound`, `Unauthenticated`, `Forbidden` and `RoomFull` stand
  for `PersistedQueryNotFoundError`, `AuthenticationError`, `ForbiddenError`
  and the `ApolloError` a full room raises. A session token is
  `NoToken | Tok(roomCode, userUuid)`. Signing builds it and decoding takes it
  apart; decoding checks nothing, as in the source.
- **The daily stale-room sweep** (`src/task/task.service.ts`). It removes
  every room created before `now` minus two days. The removal cascades to the
  room's users and contents, as the `onDelete: 'CASCADE'` relations of the
  entities require.
- **`getCookie`** (`src/shared/getCookie.ts`). A parser on strings that returns
  `Option<string>`.

Fresh uuids, room codes and the current time are parameters of the functions
that need them.

Modules:
- `Results`: `Option` and `Result`.
- `Entities`: the records, the store, and the membership and content
  selections.
- `Tokens`: the session token.
- `RoomService`: the operations.
- `RoomProperties`: lemmas that relate several calls.
- `TaskService`: the sweep.
- `Cookie`: the cookie parser.

Behaviour of the code that a reader might not expect, which the model keeps:
- `leaveRoom` does not delete a room that has become empty, although the
  comment at src/room/room.service.ts:124 says it should. It throws NotFound
  (lines 125-130) and the room stays.
- The capacity check of `joinRoom` (src/room/room.service.ts:57) counts every
  user row of the room, departed users included.
- `checkAuthenfication` answers NotFound for an unknown user
  (src/room/room.service.ts:151-158) and Unauthenticated for a departed one
  (lines 160-162).
- `removeContent` deletes by uuid in every room
  (src/room/room.service.ts:269), whichever room is named.
- `pushContent` looks the author up by uuid alone
  (src/room/room.service.ts:246), so the author need not belong to the room.
- The only sweep in the code is the daily room sweep
  (src/task/task.service.ts:14-24). Nothing clears stale listening flags.

## Model

| member | source | states |
|---|---|---|
| RoomService.GetActiveUsers | src/room/room.service.ts:32-42 | the count of listening users is at most the number of users, is zero exactly when no user is listening, and equals the number of users exactly when every user is listening; how each operation that writes users moves the count is stated exactly by `RoomProperties.ListeningRoomActiveUsers`, `UpdateLastListeningActiveUsers`, `JoinKeepsActiveUsers`, `LeaveKeepsActiveUsersAndRooms`, `CreateRoomKeepsActiveUsers`, `CreateRoomUniqueKeepsActiveUsers` and `TaskService.RemoveUnusedRoomActiveUsers` |
| RoomService.JoinRoom | src/room/room.service.ts:44-74 | unknown code gives NotFound and a room with 16 or more user rows gives RoomFull, both with the store unchanged; otherwise exactly one new non-deleted user joins that room, no other room's membership or any other state changes, the member count grows by one, and the token decodes to that code and the new uuid |
| RoomService.CreateRoom | src/room/room.service.ts:76-101 | a colliding first code is replaced by the second code exactly once, with no further check; the token names the chosen code and the creator; existing users, the contents and every other room are unchanged; when at most one code collides and every user belonged to a stored room, the creator is the new room's only user |
| RoomService.FirstFree | src/room/room.service.ts:78-83 | returns the first candidate code that is not taken, or none exactly when every candidate is taken |
| RoomService.CreateRoomUnique | src/room/room.service.ts:76-101 | with collisions retried until a code is free, the new code was not taken, every existing room and user is unchanged, the creator is the room's only user, and the token names that room and that user |
| RoomService.MarkDeparted | src/room/room.service.ts:111 | only the named user's soft-delete flag changes; room memberships stay the same and that user drops out of every room's active users |
| RoomService.LeaveRoom | src/room/room.service.ts:103-133 | an empty token gives NotFound and changes nothing; otherwise only the token user's isDeleted flag is set; rooms are never removed; an unknown room, or a room with no active user left, gives NotFound; otherwise it returns the room |
| RoomService.CheckAuthentication | src/room/room.service.ts:135-165 | errors come in source order: no token is Unauthenticated, a room mismatch is Forbidden, an unknown user is NotFound, a departed user is Unauthenticated; it succeeds exactly when none applies, and then returns the decoded payload |
| RoomService.GetIsContentPlaying | src/room/room.service.ts:167-177 | returns the room's playback flag, or NotFound for an unknown room |
| RoomService.GetRoomByToken | src/room/room.service.ts:179-189 | returns the room the token names, or NotFound when it does not exist |
| RoomService.ModifyIsContentPlaying | src/room/room.service.ts:191-209 | unknown room gives NotFound with the store unchanged; otherwise returns the condition and changes nothing but that room's isPlaying |
| RoomService.GetContents | src/room/room.service.ts:211-222 | returns exactly the contents queued in that room, or NotFound for an unknown room |
| RoomService.PushContent | src/room/room.service.ts:224-258 | a missing room or user gives NotFound with the store unchanged; otherwise the queue gains exactly one item with the given id, type, room and author, the result is the room's previous list plus that item, and other rooms' lists are unchanged |
| RoomService.CheckIsRoomExist | src/room/room.service.ts:260-266 | succeeds exactly when the room exists, and fails NotFound otherwise |
| RoomService.RemoveContent | src/room/room.service.ts:268-282 | deletes every item with that uuid from every room before looking up the room; an absent uuid leaves the store unchanged; an unknown room gives NotFound after the deletion; otherwise returns the room's remaining items |
| RoomService.ListeningRoom | src/room/room.service.ts:284-307 | unknown user gives NotFound, a room mismatch gives Forbidden even for a departed user, and a departed user gives NotFound, all with the store unchanged; otherwise only that user's isListening becomes true and the listening set grows by exactly that user |
| RoomService.FindRoom | src/room/room.service.ts:317-330 | returns the room with exactly its user rows and its contents, or NotFound |
| RoomService.UpdateLastListening | src/room/room.service.ts:332-349 | a user not found under that uuid and room gives NotFound; otherwise stamps lastListeningAt with now and sets isListening, without checking the soft-delete flag and without touching other users |
| RoomService.GetUserInfo | src/room/room.service.ts:351-357 | returns the stored user, or NotFound |
| RoomProperties.JoinThenAuthenticate | src/room/room.service.ts:65-71 | the token a successful join returns passes the authentication check of the room joined and yields that room and the new user |
| RoomProperties.JoinThenLookups | src/room/room.service.ts:62-71 | after a successful join, the token leads to the room joined, the room exists, and the new user reads back as a fresh user of it |
| RoomProperties.JoinKeepsActiveUsers | src/room/room.service.ts:62-63 | a join, successful or not, leaves the count of listening users unchanged, since the new user is not listening |
| RoomProperties.JoinCountsDepartedUsers | src/room/room.service.ts:57-59 | a room holding 16 user rows refuses a join with RoomFull even when every one of those users has left |
| RoomProperties.JoinKeepsCapacity | src/room/room.service.ts:57-63 | if no room holds more than 16 user rows before a join, none does after it |
| RoomProperties.JoinPreservesConsistent | src/room/room.service.ts:62-63 | after a join, every user still belongs to a stored room |
| RoomProperties.CreateThenAuthenticate | src/room/room.service.ts:92-100 | the creator's token passes the authentication check of the new room |
| RoomProperties.CreateRoomUniquePreservesInvariants | src/room/room.service.ts:86-90 | creating a room keeps every room within capacity and every user and content attached to a stored room |
| RoomProperties.CreateRoomAgreesWithoutDoubleCollision | src/room/room.service.ts:78-83 | unless both codes collide, the code as written gives the same store and result as retrying until a code is free |
| RoomProperties.CreateRoomDoubleCollision | src/room/room.service.ts:80-86 | when both codes are taken, the room is saved under the second code although that code already names a room |
| RoomProperties.CreateRoomThenAuthenticate | src/room/room.service.ts:80-100 | with the code as written, whatever the collisions, the creator's token passes the authentication check of the room createRoom reports |
| RoomProperties.CreateRoomThenLookups | src/room/room.service.ts:86-93 | after createRoom the reported room exists, the token leads to it, and the creator reads back as a fresh user of it |
| RoomProperties.CreateRoomUniqueThenFindRoom | src/room/room.service.ts:86-90 | with collisions retried, findRoom on the new room shows the new room record, the creator as its only user and an empty queue |
| RoomProperties.CreateRoomKeepsActiveUsers | src/room/room.service.ts:88-90 | createRoom as written adds a creator who is not listening, so the count of listening users is unchanged |
| RoomProperties.CreateRoomUniqueKeepsActiveUsers | src/room/room.service.ts:88-90 | the corrected createRoom leaves the count of listening users unchanged as well |
| TaskService.RemoveUnusedRoomListeners | src/task/task.service.ts:19-23 | the sweep removes from the listening users exactly those whose room it removes |
| TaskService.RemoveUnusedRoomActiveUsers | src/task/task.service.ts:19-23 | the sweep lowers the count of listening users by exactly the number of listening users in the rooms it removes, and never raises it |
| RoomProperties.LeaveRevokesToken | src/room/room.service.ts:111 | after leaving, the same token fails the authentication check of its room with Unauthenticated |
| RoomProperties.LeaveKeepsActiveUsersAndRooms | src/room/room.service.ts:104-132 | leaving never clears the listening flag, so the count of listening users is unchanged, and no room appears or disappears |
| RoomProperties.MarkDepartedKeepsListening | src/room/room.service.ts:111 | the soft delete leaves every user's listening flag as it was |
| RoomProperties.LastLeaveKeepsRoom | src/room/room.service.ts:125-130 | when the last active user leaves, the call fails NotFound and the room remains in the store |
| RoomProperties.LeavePreservesInvariants | src/room/room.service.ts:111 | leaving keeps every room within capacity and every user and content attached to a stored room |
| RoomProperties.ForbiddenBeforeLookup | src/room/room.service.ts:147-149 | a token for another room is refused with Forbidden whatever the store holds |
| RoomProperties.ModifyIsContentPlayingIdempotent | src/room/room.service.ts:204-206 | setting the playback flag twice to the same value gives the same store and result as setting it once |
| RoomProperties.ModifyThenGet | src/room/room.service.ts:167-209 | reading the playback flag right after setting it returns the value set |
| RoomProperties.PushContentByOutsider | src/room/room.service.ts:244-250 | a user who belongs to another room can still add an item, and the room's list grows by one |
| RoomProperties.PushContentPreservesConsistent | src/room/room.service.ts:241-252 | adding content keeps every user and content attached to a stored room |
| RoomProperties.RemoveContentIdempotent | src/room/room.service.ts:268-281 | a second identical removal gives the same store and the same list as the first |
| RoomProperties.RemoveContentIgnoresRoom | src/room/room.service.ts:269 | which room is named does not change what is deleted |
| RoomProperties.RemoveContentPreservesConsistent | src/room/room.service.ts:269 | removing content keeps every content attached to a stored room |
| RoomProperties.PushContentThenGetContents | src/room/room.service.ts:211-257 | reading a room's list right after adding an item returns the list the push returned: the previous list with the item at the end |
| RoomProperties.RemoveContentThenGetContents | src/room/room.service.ts:211-281 | reading a room's list right after a removal returns what the removal returned, NotFound included, and no returned item carries the removed uuid |
| RoomProperties.ListeningRoomActiveUsers | src/room/room.service.ts:32-42 | the count of listening users grows by exactly one when a listen request succeeds for a user who was not listening, and stays the same otherwise |
| RoomProperties.UpdateLastListeningActiveUsers | src/room/room.service.ts:332-346 | a heartbeat grows the count of listening users by exactly one when it succeeds for a user who was not listening, and otherwise leaves it; a departed user is counted again |
| RoomProperties.UpdateLastListeningPreservesInvariants | src/room/room.service.ts:344-346 | a heartbeat keeps every room within capacity and every user and content attached to a stored room |
| RoomProperties.UpdateLastListeningThenGetUserInfo | src/room/room.service.ts:344-356 | after a heartbeat the user lookup returns the record with the new time and the listening flag set, all else unchanged |
| TaskService.RemoveUnusedRoom | src/task/task.service.ts:15-24 | a room survives exactly when it was created at or after now minus two days, and keeps its fields; users and contents survive exactly when their room is not removed, unchanged; surviving rooms keep their members and their content lists |
| TaskService.RemoveUnusedRoomIdempotent | src/task/task.service.ts:19-23 | sweeping twice at the same instant leaves the same store as sweeping once |
| TaskService.RemoveUnusedRoomMonotone | src/task/task.service.ts:16-21 | a room removed by the sweep at one instant is removed by a sweep at any later instant |
| TaskService.RemoveUnusedRoomPreservesConsistent | src/room/entities/user.entity.ts:31 | the sweep leaves no user or content whose room it removed |
| TaskService.RemoveUnusedRoomOrphansAuthor | src/task/task.service.ts:19-23 | an item in a kept room written by a user of a removed room stays, while its author is deleted |
| TaskService.RemoveUnusedRoomScenario | src/task/task.service.ts:16-23 | a room created three days ago is removed with its users and contents, and a room created a day ago is kept with its members and contents |
| Entities.MembersOf | src/room/room.service.ts:57 | a room's members are exactly the stored users whose room is that code, departed users included, as the loaded `users` relation the capacity check counts |
| Entities.ActiveMembersOf | src/room/room.service.ts:124-128 | a room's active members are exactly its members that have not left; the emptied-room test of leaveRoom asks whether this set is empty |
| Entities.InRoom | src/room/room.service.ts:254-257 | selects from a queue exactly the items of one room, never more items than the queue holds, and nothing when no item belongs to the room |
| Entities.RoomContents | src/room/room.service.ts:211-218 | a room's loaded contents are exactly the stored items queued in that room, and empty when none is; that appending to the queue appends to the room's list is `Entities.InRoomAppend` |
| Entities.WithoutUuid | src/room/room.service.ts:269 | keeps exactly the items whose uuid differs, and is the identity when no item carries that uuid |
| Entities.OutsideRooms | src/room/entities/content.entity.ts:34 | keeps exactly the items not queued in a removed room, and is the identity when no item is |
| Entities.InRoomAppend | src/room/room.service.ts:252-257 | appending to the queue appends to the list of the room the items belong to and to no other |
| Entities.WithoutUuidIdempotent | src/room/room.service.ts:269 | deleting by uuid twice is the same as deleting once |
| Entities.InRoomOutside | src/room/entities/content.entity.ts:34 | the cascade from removed rooms leaves the content list of a room that is kept unchanged, in order |
| Entities.UsersInInsert | src/room/room.service.ts:62-63 | saving a user under a fresh uuid adds it to its own room's members and active members, and to no other room's |
| Cookie.Split | src/shared/getCookie.ts:4 | the pieces are never empty as a list, contain no ';', and joined with ';' give back the input |
| Cookie.SplitJoin | src/shared/getCookie.ts:4 | splitting undoes joining ';'-free pieces |
| Cookie.TrimLeadingSpaces | src/shared/getCookie.ts:6-8 | the result is a suffix of the segment, everything removed was ' ', and it does not start with ' ' |
| Cookie.FirstMatch | src/shared/getCookie.ts:5-12 | none exactly when no trimmed segment starts with the name; otherwise the value follows the name in a trimmed segment and no earlier segment matched |
| Cookie.GetCookie | src/shared/getCookie.ts:1-15 | empty input gives null; null exactly when no trimmed segment starts with `cname=`; a value contains no ';' and follows `cname=` in the first matching trimmed segment |
| Cookie.CookieRoundTrip | src/shared/getCookie.ts:2-10 | a name that does not start with a space and a value, both without ';', written as `k=v` read back as the value, trailing spaces included |
| Cookie.LeadingSpacesSkipped | src/shared/getCookie.ts:6-10 | any number of spaces before `k=v` are skipped |
| Cookie.TabNotStripped | src/shared/getCookie.ts:6-9 | a tab before `k=v` is not stripped, so the cookie is not found |
| Cookie.FirstValueWins | src/shared/getCookie.ts:5-11 | when the same name appears twice, the first value is returned |

## Findings

| source | as written | input that shows it | evidently intended | confidence | as-written member | corrected member |
|---|---|---|---|---|---|---|
| src/room/room.service.ts:80-86 | a colliding room code is replaced once by a new random code, and the replacement is saved without checking it | a store in which both the first code and its replacement already name rooms | keep drawing codes until one is free, so that room codes stay unique | not executed; the input needs two collisions of 6-character random codes in a row | RoomService.CreateRoom, shown by RoomProperties.CreateRoomDoubleCollision | RoomService.CreateRoomUnique |

What a second collision does to the database depends on the schema of the
`code` column, which src/room/entities/room.entity.ts does not declare. Without
a unique index, `save` at src/room/room.service.ts:86 inserts a second room row
under a code that is already in use, and later lookups by that code may find
either room. With one, `save` fails with a duplicate-key error and createRoom
throws. `CreateRoomDoubleCollision` states only that the chosen code was
already taken; what the store then looks like differs from either outcome (see
`RoomService.CreateRoom` under "## Left out").
`CreateRoomUnique` takes the stream of random codes as a sequence and requires
that it contains a free code. The invariant and snapshot lemmas about room
creation (`CreateThenAuthenticate`, `CreateRoomUniquePreservesInvariants`,
`CreateRoomUniqueThenFindRoom`) are stated for it. The token round trip
(`CreateRoomThenAuthenticate`) and the lookups after creation
(`CreateRoomThenLookups`) are also proved for the code as written.

## Left out

- `afterUpdateRoom` (src/room/room.service.ts:309-315): it publishes to Redis pub/sub, which is I/O.
- src/room/room.resolver.ts: GraphQL and cookie glue and subscriptions. Its `checkAuthenfication` calls are not awaited, so the gate is not enforced there; the model covers the service functions only.
- src/shared/withCancel.ts: async-iterator cancellation plumbing.
- JWT signatures and expiry are not modelled. The token type has no case for a malformed token: the source's `decode` returns null for one, and destructuring that null throws a TypeError.
- RoomService.GetRoomByToken: requires a token that carries a payload, because the source crashes with a TypeError on an empty one instead of throwing one of the modelled errors.
- `nanoid`, uuid generation and `new Date()`: these are parameters. Fresh user uuids are required to be unused.
- `Room.create` and `User.create` are not part of this model. The model assumes a new room is paused at offset 0 and stamped with `now`, and a new user is neither deleted nor listening and has no last-listening time.
- A user's random `color` is not modelled. Nothing in the core reads it.
- The auto-increment `id` columns are not modelled. The model relates rows by room code and uuid instead.
- Concurrency: the non-awaited `update` (src/room/room.service.ts:111) and `save` (src/room/room.service.ts:346) are modelled as finishing before the next step. Every operation is sequential and atomic.
- Code and uuid comparison: the model finds rooms and users by exact string equality. The source's lookups by code (src/room/room.service.ts:48, 78, 117, 170, 184, 198, 214, 234, 262, 274, 322, 337) compare under the collation of the `code` column, which src/room/entities/room.entity.ts does not declare and src/app.module.ts:11-19 does not set. MySQL's default collations ignore case, while `nanoid` codes mix cases. Under such a collation `joinRoom("ABCdef")` would find a room stored as "abcDEF" and sign the stored code (line 66), and `checkAuthenfication` for "ABCdef" would then answer Forbidden (line 147); the model answers NotFound to the join. The model assumes a case-sensitive collation.
- Repository read order: `find` without an order clause is taken to return contents in insertion order.
- The `if (!users)` branch of `getActiveUsers` is not modelled. `find` always returns an array, so the branch never runs.
- Cron scheduling (src/task/task.service.ts:14) is not modelled. The local-time `setDate` arithmetic becomes a fixed 2 × 86,400,000 ms window, which ignores daylight-saving shifts.
- TaskService.RemoveUnusedRoom: the content-to-author relation (src/room/entities/content.entity.ts:29-31) has no delete rule, so MySQL would refuse to delete a user who still authors an item, and `remove(rooms)` at src/task/task.service.ts:23 would throw. The model does not abort the sweep. It deletes the author and keeps an item queued in a surviving room, which is left naming a missing user (`TaskService.RemoveUnusedRoomOrphansAuthor`). `PushContentByOutsider` shows that such an item can be queued.
- RoomService.CreateRoom: one room record per code. On a double collision the database either inserts a second row under the taken code, whose only user is the creator (src/room/entities/user.entity.ts:31), or refuses the row and throws, if `code` has a unique index; the room entity does not show which. The model's map instead overwrites the existing room's record with the new one (paused, `createdAt` set to now). The old room's users then count as members of the new record, which can hold more than 16 user rows and which a later sweep treats as new. For this case `CreateRoomDoubleCollision` and `CreateRoomThenAuthenticate` state only that the taken code is chosen and that the token works, not which users the room then has. `RoomProperties.CreateRoomThenLookups` has no such guard: its conjunct that the token leads to the new room record holds in this case only because the map overwrites the old record; in the database the lookup may find the old row, or createRoom has thrown.
- RoomService.GetContents: its contract names the room's items by membership only. Insertion order comes from `Entities.InRoom` and is not stated as a separate property.
- RoomService.FindRoom: the snapshot's contents are likewise stated by membership only, not order.
- RoomService.RemoveContent: the remaining queue and the returned list are stated by membership only; that the relative order is kept is not stated.
- Configuration and bootstrap (src/app.module.ts, src/main.ts, src/room/room.module.ts, src/task/task.module.ts), the `EmojiEvent` DTO, and the `JoinRoomInput` record, whose shape is used only as parameters.

=== FILE: entities.dfy ===
/**
 * The records the room service reads and writes, and the in-memory store
 * that stands for its three repositories.
 */
module Entities {
  import opened Results

  type Code = string
  type Uuid = string

  /** The two media sources a queued item can come from. */
  datatype ContentType = Youtube | Soundcloud

  /** A room's own columns; its identity `code` is the key it is stored under. */
  datatype Room = Room(isPlaying: bool, playTime: int, createdAt: int)

  /** A participant; `isDeleted` is the soft-leave marker. */
  datatype User = User(
    name: string,
    roomCode: Code,
    isDeleted: bool,
    isListening: bool,
    lastListeningAt: Option<int>)

  /** One queued media item, tied to the room it is queued in and to its author. */
  datatype Content = Content(
    uuid: Uuid,
    contentId: string,
    contentType: ContentType,
    roomCode: Code,
    userUuid: Uuid)

  /** The three repositories: rooms by code, users by uuid, contents in insertion order. */
  datatype Store = Store(rooms: map<Code, Room>, users: map<Uuid, User>, contents: seq<Content>)

  /** The errors the service throws. */
  datatype Err =
    | NotFound         // PersistedQueryNotFoundError
    | Unauthenticated  // AuthenticationError
    | Forbidden        // ForbiddenError
    | RoomFull         // the ApolloError thrown when a room holds 16 user rows

  /** The outcome of an operation that may change the store, whether it succeeds or throws. */
  datatype Step<+T> = Step(store: Store, result: Result<T, Err>)

  /** Maximum number of user rows a room may hold before joins are refused. */
  const Capacity: nat := 16

  /** Every user row attached to the room, soft-deleted ones included. */
  function MembersOf(s: Store, code: Code): (r: set<Uuid>)
    ensures r <= s.users.Keys
    ensures forall u :: u in s.users ==> (u in r <==> s.users[u].roomCode == code)
  {
    UsersIn(s.users, code)
  }

  function UsersIn(users: map<Uuid, User>, code: Code): set<Uuid>
  {
    set u | u in users && users[u].roomCode == code
  }

  /** The users of the room that have not left it. */
  function ActiveMembersOf(s: Store, code: Code): (r: set<Uuid>)
    ensures r <= MembersOf(s, code)
    ensures forall u :: u in MembersOf(s, code) ==> (u in r <==> !s.users[u].isDeleted)
  {
    ActiveUsersIn(s.users, code)
  }

  function ActiveUsersIn(users: map<Uuid, User>, code: Code): set<Uuid>
  {
    set u | u in users && users[u].roomCode == code && !users[u].isDeleted
  }

  /** Users, in any room, whose listening flag is set. */
  function ListeningUsers(s: Store): set<Uuid>
  {
    set u | u in s.users && s.users[u].isListening
  }

  /** Referential integrity the database's foreign keys maintain: every user and content belongs to a stored room. */
  ghost predicate Consistent(s: Store)
  {
    && (forall u :: u in s.users ==> s.users[u].roomCode in s.rooms)
    && (forall i :: 0 <= i < |s.contents| ==> s.contents[i].roomCode in s.rooms)
  }

  /** The contents queued in room `code`, in insertion order. */
  function InRoom(cs: seq<Content>, code: Code): (r: seq<Content>)
    ensures |r| <= |cs|
    ensures forall c :: c in r <==> c in cs && c.roomCode == code
    ensures (forall i :: 0 <= i < |cs| ==> cs[i].roomCode != code) ==> r == []
  {
    if |cs| == 0 then []
    else if cs[0].roomCode == code then [cs[0]] + InRoom(cs[1..], code)
    else InRoom(cs[1..], code)
  }

  /** The contents left after deleting every item whose uuid is `uuid`, order kept. */
  function WithoutUuid(cs: seq<Content>, uuid: Uuid): (r: seq<Content>)
    ensures |r| <= |cs|
    ensures forall c :: c in r <==> c in cs && c.uuid != uuid
    ensures (forall i :: 0 <= i < |cs| ==> cs[i].uuid != uuid) ==> r == cs
  {
    if |cs| == 0 then []
    else if cs[0].uuid == uuid then WithoutUuid(cs[1..], uuid)
    else [cs[0]] + WithoutUuid(cs[1..], uuid)
  }

  /** The contents left after deleting every item queued in one of the rooms `gone`, order kept. */
  function OutsideRooms(cs: seq<Content>, gone: set<Code>): (r: seq<Content>)
    ensures |r| <= |cs|
    ensures forall c :: c in r <==> c in cs && c.roomCode !in gone
    ensures (forall i :: 0 <= i < |cs| ==> cs[i].roomCode !in gone) ==> r == cs
  {
    if |cs| == 0 then []
    else if cs[0].roomCode in gone then OutsideRooms(cs[1..], gone)
    else [cs[0]] + OutsideRooms(cs[1..], gone)
  }

  /** The room's contents as the repository lists them, in insertion order. */
  function RoomContents(s: Store, code: Code): (r: seq<Content>)
    ensures |r| <= |s.contents|
    ensures forall c :: c in r <==> c in s.contents && c.roomCode == code
    ensures (forall i :: 0 <= i < |s.contents| ==> s.contents[i].roomCode != code) ==> r == []
  {
    InRoom(s.contents, code)
  }

  /** Inserting a user under a fresh uuid adds it to its own room's members and to no other room's. */
  lemma UsersInInsert(users: map<Uuid, User>, uuid: Uuid, user: User, code: Code)
    requires uuid !in users
    ensures UsersIn(users[uuid := user], code)
      == if user.roomCode == code then UsersIn(users, code) + {uuid} else UsersIn(users, code)
    ensures ActiveUsersIn(users[uuid := user], code)
      == if user.roomCode == code && !user.isDeleted then ActiveUsersIn(users, code) + {uuid}
         else ActiveUsersIn(users, code)
  {
  }

  /** A subset is no larger than its superset, and as large only when it is the whole superset. */
  lemma SubsetCardinality<T>(a: set<T>, b: set<T>)
    requires a <= b
    ensures |a| <= |b|
    ensures |a| == |b| ==> a == b
  {
    assert b == a + (b - a);
    if |a| == |b| {
      assert |b - a| == 0;
    }
  }

  /** Taking away a subset removes exactly its elements from the count. */
  lemma DifferenceCardinality<T>(a: set<T>, b: set<T>)
    requires b <= a
    ensures |a - b| == |a| - |b|
  {
    assert a == (a - b) + b;
  }

  /** Selecting a room's contents distributes over appending to the queue. */
  lemma {:induction false} InRoomAppend(a: seq<Content>, b: seq<Content>, code: Code)
    ensures InRoom(a + b, code) == InRoom(a, code) + InRoom(b, code)
  {
    if |a| == 0 {
      assert a + b == b;
    } else {
      assert (a + b)[1..] == a[1..] + b;
      InRoomAppend(a[1..], b, code);
    }
  }

  /** Deleting by uuid twice is deleting once. */
  lemma WithoutUuidIdempotent(cs: seq<Content>, uuid: Uuid)
    ensures WithoutUuid(WithoutUuid(cs, uuid), uuid) == WithoutUuid(cs, uuid)
  {
  }

  /** A room that is not being removed keeps exactly its contents, in order. */
  lemma {:induction false} InRoomOutside(cs: seq<Content>, gone: set<Code>, code: Code)
    requires code !in gone
    ensures InRoom(OutsideRooms(cs, gone), code) == InRoom(cs, code)
  {
    if |cs| > 0 {
      InRoomOutside(cs[1..], gone, code);
    }
  }
}

=== FILE: get_cookie.dfy ===
/**
 * Reading one cookie out of a `Cookie` header: split on ';', strip leading
 * spaces from each segment, and return what follows `name=` in the first
 * segment that starts with it.
 */
module Cookie {
  import opened Results

  /** Segments glued back together with ';' between them. */
  function Join(parts: seq<string>): string
    requires |parts| >= 1
  {
    if |parts| == 1 then parts[0] else parts[0] + ";" + Join(parts[1..])
  }

  /** The string's maximal ';'-free pieces, in order, as `split(';')` returns them. */
  function Split(s: string): (parts: seq<string>)
    ensures |parts| >= 1
    ensures forall i :: 0 <= i < |parts| ==> ';' !in parts[i]
    ensures Join(parts) == s
  {
    if |s| == 0 then [""]
    else if s[0] == ';' then
      var rest := Split(s[1..]);
      assert ([""] + rest)[1..] == rest;
      [""] + rest
    else
      var rest := Split(s[1..]);
      var parts := [[s[0]] + rest[0]] + rest[1..];
      assert parts[1..] == rest[1..];
      assert s == [s[0]] + s[1..];
      parts
  }

  /** The segment with its leading ' ' characters removed; no other character is dropped. */
  function TrimLeadingSpaces(s: string): (t: string)
    ensures |t| <= |s| && t == s[|s| - |t|..]
    ensures forall i :: 0 <= i < |s| - |t| ==> s[i] == ' '
    ensures t == [] || t[0] != ' '
  {
    if |s| > 0 && s[0] == ' ' then TrimLeadingSpaces(s[1..]) else s
  }

  predicate StartsWith(s: string, prefix: string)
  {
    |prefix| <= |s| && s[..|prefix|] == prefix
  }

  /** A segment that, once its leading spaces are gone, starts with `name`. */
  predicate Matches(segment: string, name: string)
  {
    StartsWith(TrimLeadingSpaces(segment), name)
  }

  /** Every character of a matched value occurs in the segment it came from. */
  lemma ValueWithinSegment(segment: string, name: string, v: string)
    requires TrimLeadingSpaces(segment) == name + v
    ensures forall c :: c in v ==> c in segment
  {
  }

  /** What follows `name` in the first matching segment. */
  function FirstMatch(segments: seq<string>, name: string): (r: Option<string>)
    ensures r.None? <==> forall i :: 0 <= i < |segments| ==> !Matches(segments[i], name)
    ensures r.Some? ==>
      exists i :: 0 <= i < |segments| && TrimLeadingSpaces(segments[i]) == name + r.value
        && forall j :: 0 <= j < i ==> !Matches(segments[j], name)
  {
    if |segments| == 0 then None
    else
      var t := TrimLeadingSpaces(segments[0]);
      if StartsWith(t, name) then
        assert t == name + t[|name|..];
        Some(t[|name|..])
      else
        var r := FirstMatch(segments[1..], name);
        if r.Some? then
          ghost var i :| 0 <= i < |segments[1..]| && TrimLeadingSpaces(segments[1..][i]) == name + r.value
            && forall j :: 0 <= j < i ==> !Matches(segments[1..][j], name);
          assert TrimLeadingSpaces(segments[i + 1]) == name + r.value;
          assert forall j :: 0 <= j < i + 1 ==> !Matches(segments[j], name) by {
            forall j | 0 <= j < i + 1 ensures !Matches(segments[j], name) {
              if j > 0 {
                assert segments[j] == segments[1..][j - 1];
              }
            }
          }
          r
        else
          assert forall i :: 0 <= i < |segments| ==> !Matches(segments[i], name) by {
            forall i | 0 <= i < |segments| ensures !Matches(segments[i], name) {
              if i > 0 {
                assert segments[i] == segments[1..][i - 1];
              }
            }
          }
          r
  }

  /**
   * The value of cookie `cname` in header `src`, or None. Segments are not
   * trimmed at the end, and only ' ' is stripped at the front.
   */
  function GetCookie(src: string, cname: string): (r: Option<string>)
    ensures src == [] ==> r == None
    ensures r.None? <==> forall i :: 0 <= i < |Split(src)| ==> !Matches(Split(src)[i], cname + "=")
    ensures r.Some? ==> ';' !in r.value
    ensures r.Some? ==>
      exists i :: 0 <= i < |Split(src)| && TrimLeadingSpaces(Split(src)[i]) == cname + "=" + r.value
        && forall j :: 0 <= j < i ==> !Matches(Split(src)[j], cname + "=")
  {
    var name := cname + "=";
    if src == [] then
      assert Split(src) == [""];
      assert !Matches("", name);
      None
    else
      var r := FirstMatch(Split(src), name);
      if r.Some? then
        ghost var i :| 0 <= i < |Split(src)| && TrimLeadingSpaces(Split(src)[i]) == name + r.value;
        ValueWithinSegment(Split(src)[i], name, r.value);
        r
      else r
  }

  /** Splitting ';'-free text followed by more text extends the first piece of the rest. */
  lemma {:induction false} SplitPrefix(p: string, t: string)
    requires ';' !in p
    ensures Split(p + t) == [p + Split(t)[0]] + Split(t)[1..]
  {
    if |p| > 0 {
      assert p[0] in p;
      assert (p + t)[0] == p[0] != ';';
      assert (p + t)[1..] == p[1..] + t;
      SplitPrefix(p[1..], t);
      var rest := Split(p[1..] + t);
      var s := Split(t);
      assert rest[0] == p[1..] + s[0];
      assert rest[1..] == s[1..];
      assert Split(p + t) == [[p[0]] + rest[0]] + rest[1..];
      assert [p[0]] + (p[1..] + s[0]) == p + s[0];
    } else {
      assert p + t == t;
      assert p + Split(t)[0] == Split(t)[0];
      assert Split(t) == [Split(t)[0]] + Split(t)[1..];
    }
  }

  /** Text without ';' is a single segment. */
  lemma SplitSingle(p: string)
    requires ';' !in p
    ensures Split(p) == [p]
  {
  }

  /** Splitting undoes joining ';'-free segments. */
  lemma {:induction false} SplitJoin(parts: seq<string>)
    requires |parts| >= 1
    requires forall i :: 0 <= i < |parts| ==> ';' !in parts[i]
    ensures Split(Join(parts)) == parts
  {
    if |parts| == 1 {
      SplitSingle(parts[0]);
    } else {
      SplitJoin(parts[1..]);
      var rest := Join(parts[1..]);
      SplitPrefix(parts[0], ";" + rest);
      assert parts[0] + ";" + rest == parts[0] + (";" + rest);
      assert (";" + rest)[1..] == rest;
      assert Split(";" + rest) == [""] + parts[1..];
      assert Split(";" + rest)[0] == "";
      assert Split(";" + rest)[1..] == parts[1..];
      assert parts[0] + "" == parts[0];
      assert Join(parts) == parts[0] + (";" + rest);
      assert parts == [parts[0]] + parts[1..];
    }
  }

  /** A cookie written as `k=v` reads back as `v`, trailing spaces and all. */
  lemma CookieRoundTrip(k: string, v: string)
    requires ';' !in k && ';' !in v
    requires k == [] || k[0] != ' '
    ensures GetCookie(k + "=" + v, k) == Some(v)
  {
    var src := k + "=" + v;
    SplitSingle(src);
    assert TrimLeadingSpaces(src) == src;
    assert src[..|k + "="|] == k + "=";
  }

  /** Spaces in front of a segment are skipped. */
  lemma LeadingSpacesSkipped(n: nat, k: string, v: string)
    requires ';' !in k && ';' !in v
    requires k == [] || k[0] != ' '
    ensures GetCookie(seq(n, _ => ' ') + k + "=" + v, k) == Some(v)
  {
    var pair := k + "=" + v;
    var src := seq(n, _ => ' ') + pair;
    assert src == seq(n, _ => ' ') + k + "=" + v;
    SplitSingle(src);
    var t := TrimLeadingSpaces(src);
    assert t == pair by {
      assert pair[0] != ' ';
      assert t == src[|src| - |pair|..];
    }
    assert pair[..|k + "="|] == k + "=";
  }

  /** Only ' ' is stripped: a tab in front of the name hides the cookie. */
  lemma TabNotStripped(k: string, v: string)
    requires ';' !in k && ';' !in v
    requires k == [] || k[0] != '\t'
    ensures GetCookie("\t" + k + "=" + v, k) == None
  {
    var src := "\t" + k + "=" + v;
    var name := k + "=";
    SplitSingle(src);
    assert TrimLeadingSpaces(src) == src;
    assert src[0] == '\t' != name[0];
    assert !Matches(src, name);
  }

  /** When the same name appears twice, the first value wins. */
  lemma FirstValueWins(k: string, v1: string, v2: string)
    requires ';' !in k && ';' !in v1 && ';' !in v2
    requires k == [] || k[0] != ' '
    ensures GetCookie(k + "=" + v1 + ";" + k + "=" + v2, k) == Some(v1)
  {
    var first := k + "=" + v1;
    var second := k + "=" + v2;
    SplitJoin([first, second]);
    assert [first, second][1..] == [second];
    assert k + "=" + v1 + ";" + k + "=" + v2 == Join([first, second]);
    assert TrimLeadingSpaces(first) == first;
    assert first[..|k + "="|] == k + "=";
  }
}

=== FILE: results.dfy ===
/** Failure-carrying wrappers shared by every module of the model. */
module Results {

  /** A value that may be absent; `None` plays the role of a `null` return. */
  datatype Option<+T> = None | Some(value: T)

  /** Either a value or the error an operation threw instead of returning. */
  datatype Result<+T, +E> = Ok(value: T) | Fail(error: E)
}

=== FILE: room_properties.dfy ===
/**
 * Properties relating several room-service calls: tokens issued by join and
 * create pass the authentication gate, leaving revokes, playback updates and
 * content removal are idempotent, and the store invariants are kept.
 */
module RoomProperties {
  import opened Results
  import opened Entities
  import opened Tokens
  import opened RoomService

  /** No room holds more user rows than the capacity. */
  ghost predicate WithinCapacity(s: Store)
  {
    forall c :: |MembersOf(s, c)| <= Capacity
  }

  /** The token a successful join returns opens the gate of the room joined. */
  lemma JoinThenAuthenticate(s: Store, code: Code, name: string, uuid: Uuid)
    requires uuid !in s.users
    requires JoinRoom(s, code, name, uuid).result.Ok?
    ensures CheckAuthentication(JoinRoom(s, code, name, uuid).store, JoinRoom(s, code, name, uuid).result.value, code)
      == Ok(Payload(code, uuid))
  {
  }

  /** After a successful join, the token names the room joined and the new user reads back as a fresh user of it. */
  lemma JoinThenLookups(s: Store, code: Code, name: string, uuid: Uuid)
    requires uuid !in s.users
    requires JoinRoom(s, code, name, uuid).result.Ok?
    ensures var r := JoinRoom(s, code, name, uuid);
      && GetRoomByToken(r.store, r.result.value) == Ok(s.rooms[code])
      && GetUserInfo(r.store, uuid) == Ok(NewUser(name, code))
      && CheckIsRoomExist(r.store, code) == Ok(())
  {
  }

  /** A join adds a user who is not listening, so the listening count stays the same, whatever the outcome. */
  lemma JoinKeepsActiveUsers(s: Store, code: Code, name: string, uuid: Uuid)
    requires uuid !in s.users
    ensures GetActiveUsers(JoinRoom(s, code, name, uuid).store) == GetActiveUsers(s)
  {
    var r := JoinRoom(s, code, name, uuid);
    assert ListeningUsers(r.store) == ListeningUsers(s);
  }

  /** A room whose user rows have reached the capacity refuses a join even when every one of them has left. */
  lemma JoinCountsDepartedUsers(s: Store, code: Code, name: string, uuid: Uuid)
    requires uuid !in s.users
    requires code in s.rooms && |MembersOf(s, code)| >= Capacity
    requires ActiveMembersOf(s, code) == {}
    ensures JoinRoom(s, code, name, uuid) == Step(s, Fail(RoomFull))
  {
  }

  /** Joining never pushes a room past the capacity. */
  lemma JoinKeepsCapacity(s: Store, code: Code, name: string, uuid: Uuid)
    requires uuid !in s.users
    requires WithinCapacity(s)
    ensures WithinCapacity(JoinRoom(s, code, name, uuid).store)
  {
  }

  /** Joining keeps referential integrity. */
  lemma JoinPreservesConsistent(s: Store, code: Code, name: string, uuid: Uuid)
    requires uuid !in s.users
    requires Consistent(s)
    ensures Consistent(JoinRoom(s, code, name, uuid).store)
  {
  }

  /** The intended createRoom: the creator's token opens the new room's gate. */
  lemma CreateThenAuthenticate(s: Store, name: string, candidates: seq<Code>, uuid: Uuid, now: int)
    requires uuid !in s.users
    requires FirstFree(candidates, s.rooms.Keys).Some?
    ensures var r := CreateRoomUnique(s, name, candidates, uuid, now);
      CheckAuthentication(r.store, r.result.value.token, r.result.value.code) == Ok(Payload(r.result.value.code, uuid))
  {
  }

  /** The intended createRoom keeps every room within capacity and keeps referential integrity. */
  lemma CreateRoomUniquePreservesInvariants(s: Store, name: string, candidates: seq<Code>, uuid: Uuid, now: int)
    requires uuid !in s.users
    requires FirstFree(candidates, s.rooms.Keys).Some?
    requires WithinCapacity(s) && Consistent(s)
    ensures WithinCapacity(CreateRoomUnique(s, name, candidates, uuid, now).store)
    ensures Consistent(CreateRoomUnique(s, name, candidates, uuid, now).store)
  {
  }

  /** Whenever at most one collision occurs, createRoom as written agrees with the intended one. */
  lemma CreateRoomAgreesWithoutDoubleCollision(
    s: Store, name: string, code: Code, retryCode: Code, uuid: Uuid, now: int)
    requires uuid !in s.users
    requires !(code in s.rooms && retryCode in s.rooms)
    ensures FirstFree([code, retryCode], s.rooms.Keys).Some?
    ensures CreateRoom(s, name, code, retryCode, uuid, now)
      == CreateRoomUnique(s, name, [code, retryCode], uuid, now)
  {
  }

  /**
   * createRoom as written: when both random codes are taken, the room is saved
   * under the second code although that code already names a room.
   */
  lemma CreateRoomDoubleCollision(
    s: Store, name: string, code: Code, retryCode: Code, uuid: Uuid, now: int)
    requires uuid !in s.users
    requires code in s.rooms && retryCode in s.rooms
    ensures CreateRoom(s, name, code, retryCode, uuid, now).result.value.code == retryCode
    ensures CreateRoom(s, name, code, retryCode, uuid, now).result.value.code in s.rooms
  {
  }

  /** createRoom as written: the creator's token opens the gate of the room it reports, whatever the collisions. */
  lemma CreateRoomThenAuthenticate(s: Store, name: string, code: Code, retryCode: Code, uuid: Uuid, now: int)
    requires uuid !in s.users
    ensures var r := CreateRoom(s, name, code, retryCode, uuid, now);
      CheckAuthentication(r.store, r.result.value.token, r.result.value.code) == Ok(Payload(r.result.value.code, uuid))
  {
  }

  /** After any createRoom the reported room exists, and the creator's record reads back as a fresh user of it. */
  lemma CreateRoomThenLookups(s: Store, name: string, code: Code, retryCode: Code, uuid: Uuid, now: int)
    requires uuid !in s.users
    ensures var r := CreateRoom(s, name, code, retryCode, uuid, now);
      && CheckIsRoomExist(r.store, r.result.value.code) == Ok(())
      && GetRoomByToken(r.store, r.result.value.token) == Ok(r.result.value.room)
      && GetUserInfo(r.store, uuid) == Ok(NewUser(name, r.result.value.code))
  {
  }

  /** The intended createRoom: the snapshot of the new room holds the creator alone and an empty queue. */
  lemma CreateRoomUniqueThenFindRoom(s: Store, name: string, candidates: seq<Code>, uuid: Uuid, now: int)
    requires uuid !in s.users
    requires FirstFree(candidates, s.rooms.Keys).Some?
    requires Consistent(s)
    ensures var r := CreateRoomUnique(s, name, candidates, uuid, now);
      FindRoom(r.store, r.result.value.code)
        == Ok(Snapshot(r.result.value.code, NewRoom(now), map[uuid := NewUser(name, r.result.value.code)], []))
  {
    var r := CreateRoomUnique(s, name, candidates, uuid, now);
    var code := r.result.value.code;
    assert RoomContents(r.store, code) == [] by {
      assert forall i :: 0 <= i < |r.store.contents| ==> r.store.contents[i].roomCode != code;
    }
    var snap := FindRoom(r.store, code).value;
    assert snap.users == map[uuid := NewUser(name, code)];
  }

  /** createRoom as written adds a creator who is not listening, so the listening count stays the same. */
  lemma CreateRoomKeepsActiveUsers(s: Store, name: string, code: Code, retryCode: Code, uuid: Uuid, now: int)
    requires uuid !in s.users
    ensures GetActiveUsers(CreateRoom(s, name, code, retryCode, uuid, now).store) == GetActiveUsers(s)
  {
    var r := CreateRoom(s, name, code, retryCode, uuid, now);
    assert ListeningUsers(r.store) == ListeningUsers(s);
  }

  /** The intended createRoom leaves the listening count the same too. */
  lemma CreateRoomUniqueKeepsActiveUsers(s: Store, name: string, candidates: seq<Code>, uuid: Uuid, now: int)
    requires uuid !in s.users
    requires FirstFree(candidates, s.rooms.Keys).Some?
    ensures GetActiveUsers(CreateRoomUnique(s, name, candidates, uuid, now).store) == GetActiveUsers(s)
  {
    var r := CreateRoomUnique(s, name, candidates, uuid, now);
    assert ListeningUsers(r.store) == ListeningUsers(s);
  }

  /** After leaving, the token no longer passes the gate of its room. */
  lemma LeaveRevokesToken(s: Store, code: Code, uuid: Uuid)
    requires uuid in s.users
    ensures CheckAuthentication(LeaveRoom(s, Tok(code, uuid)).store, Tok(code, uuid), code) == Fail(Unauthenticated)
  {
  }

  /**
   * Leaving does not clear the listening flag, so a departed listener is
   * still counted as active, and every room stays, whatever the outcome.
   */
  lemma LeaveKeepsActiveUsersAndRooms(s: Store, token: Token, code: Code)
    ensures GetActiveUsers(LeaveRoom(s, token).store) == GetActiveUsers(s)
    ensures CheckIsRoomExist(LeaveRoom(s, token).store, code) == CheckIsRoomExist(s, code)
  {
    if token.Tok? {
      MarkDepartedKeepsListening(s, token.userUuid);
      assert LeaveRoom(s, token).store == MarkDeparted(s, token.userUuid);
    }
  }

  /** The soft delete leaves every listening flag as it was. */
  lemma MarkDepartedKeepsListening(s: Store, uuid: Uuid)
    ensures ListeningUsers(MarkDeparted(s, uuid)) == ListeningUsers(s)
  {
  }

  /** The last active user leaving gets NotFound, and the room stays in the store. */
  lemma LastLeaveKeepsRoom(s: Store, code: Code, uuid: Uuid)
    requires code in s.rooms
    requires ActiveMembersOf(s, code) <= {uuid}
    ensures LeaveRoom(s, Tok(code, uuid)).result == Fail(NotFound)
    ensures code in LeaveRoom(s, Tok(code, uuid)).store.rooms
  {
  }

  /** Leaving keeps referential integrity and the capacity bound. */
  lemma LeavePreservesInvariants(s: Store, token: Token)
    requires WithinCapacity(s) && Consistent(s)
    ensures WithinCapacity(LeaveRoom(s, token).store)
    ensures Consistent(LeaveRoom(s, token).store)
  {
  }

  /** A room mismatch is refused without consulting the store. */
  lemma ForbiddenBeforeLookup(s1: Store, s2: Store, token: Token, code: Code)
    requires token.Tok? && token.roomCode != code
    ensures CheckAuthentication(s1, token, code) == CheckAuthentication(s2, token, code) == Fail(Forbidden)
  {
  }

  /** Setting the playback flag twice to the same value is setting it once. */
  lemma ModifyIsContentPlayingIdempotent(s: Store, code: Code, condition: bool)
    ensures var once := ModifyIsContentPlaying(s, code, condition);
      ModifyIsContentPlaying(once.store, code, condition) == once
  {
  }

  /** Reading the playback flag right after setting it gives the value set. */
  lemma ModifyThenGet(s: Store, code: Code, condition: bool)
    requires code in s.rooms
    ensures GetIsContentPlaying(ModifyIsContentPlaying(s, code, condition).store, code) == Ok(condition)
  {
  }

  /** A user queued in one room may add content to another room. */
  lemma PushContentByOutsider(
    s: Store, code: Code, userUuid: Uuid, contentId: string, contentType: ContentType, uuid: Uuid)
    requires code in s.rooms && userUuid in s.users && s.users[userUuid].roomCode != code
    ensures PushContent(s, code, userUuid, contentId, contentType, uuid).result.Ok?
    ensures |PushContent(s, code, userUuid, contentId, contentType, uuid).result.value| == |RoomContents(s, code)| + 1
  {
  }

  /** Adding content keeps referential integrity. */
  lemma PushContentPreservesConsistent(
    s: Store, code: Code, userUuid: Uuid, contentId: string, contentType: ContentType, uuid: Uuid)
    requires Consistent(s)
    ensures Consistent(PushContent(s, code, userUuid, contentId, contentType, uuid).store)
  {
  }

  /** Two identical removals leave the same store and return the same list as one. */
  lemma RemoveContentIdempotent(s: Store, code: Code, uuid: Uuid)
    ensures var once := RemoveContent(s, code, uuid);
      RemoveContent(once.store, code, uuid) == once
  {
  }

  /** A removal deletes matching items of every room, whichever room was named. */
  lemma RemoveContentIgnoresRoom(s: Store, code1: Code, code2: Code, uuid: Uuid)
    ensures RemoveContent(s, code1, uuid).store == RemoveContent(s, code2, uuid).store
  {
  }

  /** Removing content keeps referential integrity. */
  lemma RemoveContentPreservesConsistent(s: Store, code: Code, uuid: Uuid)
    requires Consistent(s)
    ensures Consistent(RemoveContent(s, code, uuid).store)
  {
  }

  /** Reading a room's list right after adding an item gives the list the push returned. */
  lemma PushContentThenGetContents(
    s: Store, code: Code, userUuid: Uuid, contentId: string, contentType: ContentType, uuid: Uuid)
    requires code in s.rooms && userUuid in s.users
    ensures var r := PushContent(s, code, userUuid, contentId, contentType, uuid);
      && GetContents(r.store, code) == r.result
      && GetContents(r.store, code) == Ok(RoomContents(s, code) + [Content(uuid, contentId, contentType, code, userUuid)])
  {
  }

  /** Reading a room's list right after a removal gives the list the removal returned, or NotFound for both. */
  lemma RemoveContentThenGetContents(s: Store, code: Code, uuid: Uuid)
    ensures var r := RemoveContent(s, code, uuid);
      && GetContents(r.store, code) == r.result
      && (r.result.Ok? ==> forall c :: c in r.result.value ==> c.uuid != uuid)
  {
  }

  /**
   * A listen request adds one to the active-user count exactly when it
   * succeeds for a user who was not yet listening; otherwise the count stays.
   */
  lemma ListeningRoomActiveUsers(s: Store, code: Code, uuid: Uuid)
    ensures var r := ListeningRoom(s, code, uuid);
      GetActiveUsers(r.store)
        == GetActiveUsers(s) + (if r.result.Ok? && !s.users[uuid].isListening then 1 else 0)
  {
    var r := ListeningRoom(s, code, uuid);
    if r.result.Ok? {
      assert ListeningUsers(r.store) == ListeningUsers(s) + {uuid};
      if !s.users[uuid].isListening {
        assert uuid !in ListeningUsers(s);
      } else {
        assert ListeningUsers(r.store) == ListeningUsers(s);
      }
    }
  }

  /**
   * updateLastListeng skips the soft-delete check, so a heartbeat from a
   * departed user who was not listening adds one to the active-user count.
   * In general the count grows by one exactly when the heartbeat succeeds for
   * a user who was not listening.
   */
  lemma UpdateLastListeningActiveUsers(s: Store, code: Code, uuid: Uuid, now: int)
    ensures var r := UpdateLastListening(s, code, uuid, now);
      GetActiveUsers(r.store)
        == GetActiveUsers(s) + (if r.result.Ok? && !s.users[uuid].isListening then 1 else 0)
    ensures uuid in s.users && s.users[uuid].roomCode == code && s.users[uuid].isDeleted && !s.users[uuid].isListening ==>
      GetActiveUsers(UpdateLastListening(s, code, uuid, now).store) == GetActiveUsers(s) + 1
  {
    var r := UpdateLastListening(s, code, uuid, now);
    if r.result.Ok? {
      assert ListeningUsers(r.store) == ListeningUsers(s) + {uuid};
      if !s.users[uuid].isListening {
        assert uuid !in ListeningUsers(s);
      } else {
        assert ListeningUsers(r.store) == ListeningUsers(s);
      }
    }
  }

  /** A heartbeat keeps referential integrity and the capacity bound. */
  lemma UpdateLastListeningPreservesInvariants(s: Store, code: Code, uuid: Uuid, now: int)
    requires WithinCapacity(s) && Consistent(s)
    ensures WithinCapacity(UpdateLastListening(s, code, uuid, now).store)
    ensures Consistent(UpdateLastListening(s, code, uuid, now).store)
  {
    var r := UpdateLastListening(s, code, uuid, now);
    assert forall c :: MembersOf(r.store, c) == MembersOf(s, c);
  }

  /** A heartbeat is seen by the user lookup: the record carries the new time and the listening flag. */
  lemma UpdateLastListeningThenGetUserInfo(s: Store, code: Code, uuid: Uuid, now: int)
    requires uuid in s.users && s.users[uuid].roomCode == code
    ensures GetUserInfo(UpdateLastListening(s, code, uuid, now).store, uuid)
      == Ok(s.users[uuid].(lastListeningAt := Some(now), isListening := true))
  {
  }
}

=== FILE: room_service.dfy ===
/**
 * The room service as pure transitions over the store. Each operation takes
 * the store and returns either a `Result` (lookups, which never write) or a
 * `Step` holding the store after the call together with the value returned
 * or the error thrown. Fresh uuids, room codes and the current time are
 * parameters.
 */
module RoomService {
  import opened Results
  import opened Entities
  import opened Tokens

  /** What createRoom hands back: the saved room under its code, and the creator's token. */
  datatype Created = Created(code: Code, room: Room, token: Token)

  /** A room with its users and contents loaded, as findRoom returns it. */
  datatype Snapshot = Snapshot(code: Code, room: Room, users: map<Uuid, User>, contents: seq<Content>)

  /** A freshly created user: present, not listening, never heard from. */
  function NewUser(name: string, code: Code): User
  {
    User(name, code, false, false, None)
  }

  /** A freshly created room: paused at offset 0. */
  function NewRoom(now: int): Room
  {
    Room(false, 0, now)
  }

  /** Number of users, across all rooms, whose listening flag is set. */
  function GetActiveUsers(s: Store): (n: nat)
    ensures n <= |s.users|
    ensures n == 0 <==> forall u :: u in s.users ==> !s.users[u].isListening
    ensures n == |s.users| <==> forall u :: u in s.users ==> s.users[u].isListening
  {
    var listening := ListeningUsers(s);
    assert listening <= s.users.Keys;
    assert forall u :: u in s.users && s.users[u].isListening ==> u in listening;
    SubsetCardinality(listening, s.users.Keys);
    assert |s.users.Keys| == |s.users|;
    assert (forall u :: u in s.users ==> s.users[u].isListening) ==> listening == s.users.Keys;
    |listening|
  }

  /** Saves `user` under a fresh uuid; nothing else in the store changes. */
  function AddUser(s: Store, uuid: Uuid, user: User): (s': Store)
    requires uuid !in s.users
    ensures s'.rooms == s.rooms && s'.contents == s.contents
    ensures s'.users.Keys == s.users.Keys + {uuid}
    ensures s'.users[uuid] == user
    ensures forall u :: u in s.users ==> s'.users[u] == s.users[u]
    ensures MembersOf(s', user.roomCode) == MembersOf(s, user.roomCode) + {uuid}
    ensures !user.isDeleted ==> ActiveMembersOf(s', user.roomCode) == ActiveMembersOf(s, user.roomCode) + {uuid}
    ensures forall c :: c != user.roomCode ==> MembersOf(s', c) == MembersOf(s, c)
  {
    var users := s.users[uuid := user];
    UsersInInsert(s.users, uuid, user, user.roomCode);
    forall c | c != user.roomCode ensures UsersIn(users, c) == UsersIn(s.users, c) {
      UsersInInsert(s.users, uuid, user, c);
    }
    s.(users := users)
  }

  /**
   * Adds a user named `name` to room `code` and returns that user's token.
   * The capacity check counts every user row of the room, soft-deleted ones included.
   */
  function JoinRoom(s: Store, code: Code, name: string, uuid: Uuid): (r: Step<Token>)
    requires uuid !in s.users
    ensures code !in s.rooms ==> r == Step(s, Fail(NotFound))
    ensures code in s.rooms && |MembersOf(s, code)| >= Capacity ==> r == Step(s, Fail(RoomFull))
    ensures r.result.Ok? <==> code in s.rooms && |MembersOf(s, code)| < Capacity
    ensures r.result.Ok? ==>
      && r.result.value.Tok?
      && Decode(r.result.value) == Payload(code, uuid)
      && r.store.rooms == s.rooms
      && r.store.contents == s.contents
      && r.store.users.Keys == s.users.Keys + {uuid}
      && (forall u :: u in s.users ==> r.store.users[u] == s.users[u])
      && r.store.users[uuid].name == name
      && r.store.users[uuid].roomCode == code
      && !r.store.users[uuid].isDeleted
      && MembersOf(r.store, code) == MembersOf(s, code) + {uuid}
      && |MembersOf(r.store, code)| == |MembersOf(s, code)| + 1
      && ActiveMembersOf(r.store, code) == ActiveMembersOf(s, code) + {uuid}
      && (forall c :: c != code ==> MembersOf(r.store, c) == MembersOf(s, c))
  {
    if code !in s.rooms then Step(s, Fail(NotFound))
    else if |MembersOf(s, code)| >= Capacity then Step(s, Fail(RoomFull))
    else
      Step(AddUser(s, uuid, NewUser(name, code)), Ok(Sign(Payload(code, uuid))))
  }

  /** Saves a new room under `code` with its creator as a user, and signs the creator's token. */
  function SaveRoomWithCreator(s: Store, code: Code, name: string, uuid: Uuid, now: int): (r: Step<Created>)
    requires uuid !in s.users
    ensures r.result.Ok?
    ensures r.result.value.code == code
    ensures r.result.value.room.createdAt == now && !r.result.value.room.isPlaying
    ensures r.result.value.token.Tok? && Decode(r.result.value.token) == Payload(code, uuid)
    ensures r.store.rooms.Keys == s.rooms.Keys + {code}
    ensures r.store.rooms[code] == r.result.value.room
    ensures forall c :: c in s.rooms && c != code ==> r.store.rooms[c] == s.rooms[c]
    ensures r.store.users.Keys == s.users.Keys + {uuid}
    ensures forall u :: u in s.users ==> r.store.users[u] == s.users[u]
    ensures r.store.users[uuid].name == name && r.store.users[uuid].roomCode == code
    ensures !r.store.users[uuid].isDeleted
    ensures r.store.contents == s.contents
    ensures MembersOf(r.store, code) == MembersOf(s, code) + {uuid}
    ensures forall c :: c != code ==> MembersOf(r.store, c) == MembersOf(s, c)
    ensures Consistent(s) && code !in s.rooms ==> MembersOf(r.store, code) == {uuid}
  {
    var room := NewRoom(now);
    var s' := AddUser(s, uuid, NewUser(name, code));
    Step(s'.(rooms := s.rooms[code := room]), Ok(Created(code, room, Sign(Payload(code, uuid)))))
  }

  /**
   * createRoom as written: if the first random code is taken it is replaced by
   * a second one, which is used without being checked.
   */
  function CreateRoom(s: Store, name: string, code: Code, retryCode: Code, uuid: Uuid, now: int): (r: Step<Created>)
    requires uuid !in s.users
    ensures r.result.Ok?
    ensures code !in s.rooms ==> r.result.value.code == code
    ensures code in s.rooms ==> r.result.value.code == retryCode
    ensures r.result.value.token.Tok? && Decode(r.result.value.token) == Payload(r.result.value.code, uuid)
    ensures r.store.rooms.Keys == s.rooms.Keys + {r.result.value.code}
    ensures r.store.rooms[r.result.value.code] == r.result.value.room
    ensures r.result.value.room.createdAt == now
    ensures r.store.users.Keys == s.users.Keys + {uuid}
    ensures r.store.users[uuid].roomCode == r.result.value.code
    ensures forall u :: u in s.users ==> r.store.users[u] == s.users[u]
    ensures forall c :: c in s.rooms && c != r.result.value.code ==> r.store.rooms[c] == s.rooms[c]
    ensures r.store.contents == s.contents
    ensures Consistent(s) && !(code in s.rooms && retryCode in s.rooms) ==>
      MembersOf(r.store, r.result.value.code) == {uuid}
  {
    var chosen := if code in s.rooms then retryCode else code;
    SaveRoomWithCreator(s, chosen, name, uuid, now)
  }

  /** The first candidate code not already taken, if any. */
  function FirstFree(candidates: seq<Code>, taken: set<Code>): (r: Option<Code>)
    ensures r.None? <==> forall i :: 0 <= i < |candidates| ==> candidates[i] in taken
    ensures r.Some? ==>
      exists i :: 0 <= i < |candidates| && candidates[i] == r.value && r.value !in taken
        && forall j :: 0 <= j < i ==> candidates[j] in taken
  {
    if |candidates| == 0 then None
    else if candidates[0] !in taken then Some(candidates[0])
    else
      var r := FirstFree(candidates[1..], taken);
      if r.Some? then
        ghost var i :| 0 <= i < |candidates[1..]| && candidates[1..][i] == r.value && r.value !in taken
          && forall j :: 0 <= j < i ==> candidates[1..][j] in taken;
        assert candidates[i + 1] == r.value;
        r
      else r
  }

  /**
   * createRoom with collisions resolved as intended: keep drawing codes until
   * one is free. `candidates` stands for the stream of random codes.
   */
  function CreateRoomUnique(s: Store, name: string, candidates: seq<Code>, uuid: Uuid, now: int): (r: Step<Created>)
    requires uuid !in s.users
    requires FirstFree(candidates, s.rooms.Keys).Some?
    ensures r.result.Ok?
    ensures r.result.value.code in candidates && r.result.value.code !in s.rooms
    ensures r.result.value.token.Tok? && Decode(r.result.value.token) == Payload(r.result.value.code, uuid)
    ensures r.store.rooms.Keys == s.rooms.Keys + {r.result.value.code}
    ensures forall c :: c in s.rooms ==> r.store.rooms[c] == s.rooms[c]
    ensures r.store.rooms[r.result.value.code] == r.result.value.room
    ensures r.result.value.room.createdAt == now
    ensures r.store.users.Keys == s.users.Keys + {uuid}
    ensures forall u :: u in s.users ==> r.store.users[u] == s.users[u]
    ensures r.store.contents == s.contents
    ensures Consistent(s) ==> MembersOf(r.store, r.result.value.code) == {uuid}
  {
    SaveRoomWithCreator(s, FirstFree(candidates, s.rooms.Keys).value, name, uuid, now)
  }

  /** Sets the soft-leave flag of user `uuid`; an unknown uuid updates nothing. */
  function MarkDeparted(s: Store, uuid: Uuid): (s': Store)
    ensures s'.rooms == s.rooms && s'.contents == s.contents
    ensures s'.users.Keys == s.users.Keys
    ensures forall u :: u in s.users && u != uuid ==> s'.users[u] == s.users[u]
    ensures uuid in s.users ==> s'.users[uuid] == s.users[uuid].(isDeleted := true)
    ensures forall c :: MembersOf(s', c) == MembersOf(s, c)
    ensures forall c :: ActiveMembersOf(s', c) == ActiveMembersOf(s, c) - {uuid}
  {
    if uuid in s.users then
      var s' := s.(users := s.users[uuid := s.users[uuid].(isDeleted := true)]);
      assert forall c :: MembersOf(s', c) == MembersOf(s, c);
      assert forall c :: ActiveMembersOf(s', c) == ActiveMembersOf(s, c) - {uuid};
      s'
    else s
  }

  /**
   * Marks the token's user as departed, then returns the token's room. A room
   * left with no user, or only departed users, is not deleted: the call throws.
   */
  function LeaveRoom(s: Store, token: Token): (r: Step<Room>)
    ensures token.NoToken? ==> r == Step(s, Fail(NotFound))
    ensures token.Tok? ==>
      && r.store.rooms == s.rooms
      && r.store.contents == s.contents
      && r.store.users.Keys == s.users.Keys
      && (forall u :: u in s.users && u != token.userUuid ==> r.store.users[u] == s.users[u])
      && (token.userUuid in s.users ==> r.store.users[token.userUuid] == s.users[token.userUuid].(isDeleted := true))
    ensures token.Tok? && token.roomCode !in s.rooms ==> r.result == Fail(NotFound)
    ensures token.Tok? && token.roomCode in s.rooms ==>
      (r.result.Ok? <==> ActiveMembersOf(s, token.roomCode) - {token.userUuid} != {})
    ensures r.result.Ok? ==> token.Tok? && token.roomCode in s.rooms && r.result.value == s.rooms[token.roomCode]
    ensures r.result.Fail? ==> r.result.error == NotFound
  {
    match token
    case NoToken => Step(s, Fail(NotFound))
    case Tok(code, uuid) =>
      var s' := MarkDeparted(s, uuid);
      if code !in s'.rooms then Step(s', Fail(NotFound))
      else
        var members := MembersOf(s', code);
        if |members| <= 0 || (forall u :: u in members ==> s'.users[u].isDeleted) then
          Step(s', Fail(NotFound))
        else
          assert exists u :: u in ActiveMembersOf(s', code) by {
            var u :| u in members && !s'.users[u].isDeleted;
            assert u in ActiveMembersOf(s', code);
          }
          Step(s', Ok(s'.rooms[code]))
  }

  /**
   * The gate for room-scoped requests, checked in this order: a token is
   * present, it names the requested room, its user exists, and has not left.
   */
  function CheckAuthentication(s: Store, token: Token, code: Code): (r: Result<Payload, Err>)
    ensures token.NoToken? ==> r == Fail(Unauthenticated)
    ensures token.Tok? && token.roomCode != code ==> r == Fail(Forbidden)
    ensures token.Tok? && token.roomCode == code && token.userUuid !in s.users ==> r == Fail(NotFound)
    ensures token.Tok? && token.roomCode == code && token.userUuid in s.users && s.users[token.userUuid].isDeleted ==>
      r == Fail(Unauthenticated)
    ensures r.Ok? <==>
      token.Tok? && token.roomCode == code && token.userUuid in s.users && !s.users[token.userUuid].isDeleted
    ensures r.Ok? ==> r.value == Payload(code, token.userUuid)
  {
    if token.NoToken? then Fail(Unauthenticated)
    else
      var payload := Decode(token);
      if payload.roomCode != code then Fail(Forbidden)
      else if payload.userUuid !in s.users then Fail(NotFound)
      else if s.users[payload.userUuid].isDeleted then Fail(Unauthenticated)
      else Ok(payload)
  }

  /** The room's playback flag. */
  function GetIsContentPlaying(s: Store, code: Code): (r: Result<bool, Err>)
    ensures code !in s.rooms ==> r == Fail(NotFound)
    ensures code in s.rooms ==> r == Ok(s.rooms[code].isPlaying)
  {
    if code in s.rooms then Ok(s.rooms[code].isPlaying) else Fail(NotFound)
  }

  /**
   * The room named by the token. Requires a token: the source destructures the
   * decoded payload, which crashes on an empty one.
   */
  function GetRoomByToken(s: Store, token: Token): (r: Result<Room, Err>)
    requires token.Tok?
    ensures r.Ok? <==> token.roomCode in s.rooms
    ensures r.Ok? ==> r.value == s.rooms[token.roomCode]
    ensures r.Fail? ==> r.error == NotFound
  {
    var payload := Decode(token);
    if payload.roomCode in s.rooms then Ok(s.rooms[payload.roomCode]) else Fail(NotFound)
  }

  /** Sets the room's playback flag and returns the value stored. */
  function ModifyIsContentPlaying(s: Store, code: Code, condition: bool): (r: Step<bool>)
    ensures code !in s.rooms ==> r == Step(s, Fail(NotFound))
    ensures code in s.rooms ==>
      && r.result == Ok(condition)
      && r.store.users == s.users
      && r.store.contents == s.contents
      && r.store.rooms.Keys == s.rooms.Keys
      && r.store.rooms[code].isPlaying == condition
      && r.store.rooms[code].playTime == s.rooms[code].playTime
      && r.store.rooms[code].createdAt == s.rooms[code].createdAt
      && (forall c :: c in s.rooms && c != code ==> r.store.rooms[c] == s.rooms[c])
  {
    if code !in s.rooms then Step(s, Fail(NotFound))
    else
      var room := s.rooms[code].(isPlaying := condition);
      Step(s.(rooms := s.rooms[code := room]), Ok(room.isPlaying))
  }

  /** The room's contents in insertion order. */
  function GetContents(s: Store, code: Code): (r: Result<seq<Content>, Err>)
    ensures r.Ok? <==> code in s.rooms
    ensures r.Fail? ==> r.error == NotFound
    ensures r.Ok? ==> forall c :: c in r.value <==> c in s.contents && c.roomCode == code
  {
    if code in s.rooms then Ok(RoomContents(s, code)) else Fail(NotFound)
  }

  /**
   * Queues an item authored by `userUuid` in room `code` and returns the room's
   * contents. The author is not required to belong to the room.
   */
  function PushContent(
    s: Store, code: Code, userUuid: Uuid, contentId: string, contentType: ContentType, uuid: Uuid
  ): (r: Step<seq<Content>>)
    ensures code !in s.rooms || userUuid !in s.users ==> r == Step(s, Fail(NotFound))
    ensures code in s.rooms && userUuid in s.users ==>
      && r.store.rooms == s.rooms
      && r.store.users == s.users
      && r.store.contents == s.contents + [Content(uuid, contentId, contentType, code, userUuid)]
      && r.result == Ok(RoomContents(s, code) + [Content(uuid, contentId, contentType, code, userUuid)])
      && (forall c :: c != code ==> RoomContents(r.store, c) == RoomContents(s, c))
  {
    if code !in s.rooms then Step(s, Fail(NotFound))
    else
      var item := Content(uuid, contentId, contentType, code, userUuid);
      if userUuid !in s.users then Step(s, Fail(NotFound))
      else
        var s' := s.(contents := s.contents + [item]);
        InRoomAppend(s.contents, [item], code);
        assert InRoom([item], code) == [item] by {
          assert [item][1..] == [];
        }
        assert forall c :: c != code ==> RoomContents(s', c) == RoomContents(s, c) by {
          forall c | c != code ensures RoomContents(s', c) == RoomContents(s, c) {
            InRoomAppend(s.contents, [item], c);
          }
        }
        Step(s', Ok(RoomContents(s', code)))
  }

  /** Succeeds exactly when the room exists. */
  function CheckIsRoomExist(s: Store, code: Code): (r: Result<(), Err>)
    ensures r.Ok? <==> code in s.rooms
    ensures r.Fail? ==> r.error == NotFound
  {
    if code in s.rooms then Ok(()) else Fail(NotFound)
  }

  /**
   * Deletes every item whose uuid is `uuid`, in whatever room it is queued,
   * then returns room `code`'s contents; the deletion stands even when the
   * room lookup throws.
   */
  function RemoveContent(s: Store, code: Code, uuid: Uuid): (r: Step<seq<Content>>)
    ensures r.store.rooms == s.rooms && r.store.users == s.users
    ensures forall c :: c in r.store.contents <==> c in s.contents && c.uuid != uuid
    ensures (forall i :: 0 <= i < |s.contents| ==> s.contents[i].uuid != uuid) ==> r.store == s
    ensures code !in s.rooms ==> r.result == Fail(NotFound)
    ensures code in s.rooms ==>
      && r.result.Ok?
      && (forall c :: c in r.result.value <==> c in s.contents && c.roomCode == code && c.uuid != uuid)
  {
    var s' := s.(contents := WithoutUuid(s.contents, uuid));
    if code !in s'.rooms then Step(s', Fail(NotFound))
    else Step(s', Ok(RoomContents(s', code)))
  }

  /**
   * Marks a user as listening. The room check comes before the departed check,
   * so a departed user asking about another room is refused as Forbidden.
   */
  function ListeningRoom(s: Store, code: Code, uuid: Uuid): (r: Step<()>)
    ensures uuid !in s.users ==> r == Step(s, Fail(NotFound))
    ensures uuid in s.users && s.users[uuid].roomCode != code ==> r == Step(s, Fail(Forbidden))
    ensures uuid in s.users && s.users[uuid].roomCode == code && s.users[uuid].isDeleted ==>
      r == Step(s, Fail(NotFound))
    ensures r.result.Ok? <==> uuid in s.users && s.users[uuid].roomCode == code && !s.users[uuid].isDeleted
    ensures r.result.Ok? ==>
      && r.store.rooms == s.rooms
      && r.store.contents == s.contents
      && r.store.users.Keys == s.users.Keys
      && r.store.users[uuid] == s.users[uuid].(isListening := true)
      && (forall u :: u in s.users && u != uuid ==> r.store.users[u] == s.users[u])
      && ListeningUsers(r.store) == ListeningUsers(s) + {uuid}
  {
    if uuid !in s.users then Step(s, Fail(NotFound))
    else
      var user := s.users[uuid];
      if user.roomCode != code then Step(s, Fail(Forbidden))
      else if user.isDeleted then Step(s, Fail(NotFound))
      else
        var s' := s.(users := s.users[uuid := user.(isListening := true)]);
        assert ListeningUsers(s') == ListeningUsers(s) + {uuid};
        Step(s', Ok(()))
  }

  /** The room with its users and contents. */
  function FindRoom(s: Store, code: Code): (r: Result<Snapshot, Err>)
    ensures r.Ok? <==> code in s.rooms
    ensures r.Fail? ==> r.error == NotFound
    ensures r.Ok? ==>
      && r.value.code == code
      && r.value.room == s.rooms[code]
      && r.value.users.Keys == MembersOf(s, code)
      && (forall u :: u in r.value.users ==> r.value.users[u] == s.users[u])
      && (forall c :: c in r.value.contents <==> c in s.contents && c.roomCode == code)
  {
    if code !in s.rooms then Fail(NotFound)
    else
      var users := map u | u in MembersOf(s, code) :: s.users[u];
      Ok(Snapshot(code, s.rooms[code], users, RoomContents(s, code)))
  }

  /**
   * Records a heartbeat: stamps `now` and sets the listening flag. The user is
   * looked up by uuid and room together, so a mismatched room reads as
   * NotFound, and a departed user is not refused.
   */
  function UpdateLastListening(s: Store, code: Code, uuid: Uuid, now: int): (r: Step<()>)
    ensures !(uuid in s.users && s.users[uuid].roomCode == code) ==> r == Step(s, Fail(NotFound))
    ensures uuid in s.users && s.users[uuid].roomCode == code ==>
      && r.result.Ok?
      && r.store.rooms == s.rooms
      && r.store.contents == s.contents
      && r.store.users.Keys == s.users.Keys
      && r.store.users[uuid].lastListeningAt == Some(now)
      && r.store.users[uuid].isListening
      && r.store.users[uuid].isDeleted == s.users[uuid].isDeleted
      && r.store.users[uuid].name == s.users[uuid].name
      && r.store.users[uuid].roomCode == code
      && (forall u :: u in s.users && u != uuid ==> r.store.users[u] == s.users[u])
  {
    if !(uuid in s.users && s.users[uuid].roomCode == code) then Step(s, Fail(NotFound))
    else
      var user := s.users[uuid].(lastListeningAt := Some(now), isListening := true);
      Step(s.(users := s.users[uuid := user]), Ok(()))
  }

  /** The user stored under `uuid`. */
  function GetUserInfo(s: Store, uuid: Uuid): (r: Result<User, Err>)
    ensures r.Ok? <==> uuid in s.users
    ensures r.Ok? ==> r.value == s.users[uuid]
    ensures r.Fail? ==> r.error == NotFound
  {
    if uuid in s.users then Ok(s.users[uuid]) else Fail(NotFound)
  }
}

=== FILE: task_service.dfy ===
/**
 * The daily sweep that deletes rooms created more than two days ago.
 * Deleting a room cascades to its users and its contents. Times are integer
 * milliseconds; the cutoff is `now` less two days.
 */
module TaskService {
  import opened Entities
  import opened RoomService

  const DayMillis: int := 86_400_000

  /** How long a room is kept after its creation. */
  const RetentionWindow: int := 2 * DayMillis

  /** The sweep removes rooms created strictly before this instant. */
  function Cutoff(now: int): int
  {
    now - RetentionWindow
  }

  predicate IsStale(room: Room, now: int)
  {
    room.createdAt < Cutoff(now)
  }

  /** Codes of the rooms the sweep at `now` selects. */
  function StaleCodes(s: Store, now: int): (gone: set<Code>)
    ensures gone <= s.rooms.Keys
    ensures forall c :: c in s.rooms ==> (c in gone <==> s.rooms[c].createdAt < now - RetentionWindow)
  {
    set c | c in s.rooms && IsStale(s.rooms[c], now)
  }

  /** Removes every stale room together with the users and contents it owns. */
  function RemoveUnusedRoom(s: Store, now: int): (r: Store)
    ensures forall c :: c in r.rooms <==> c in s.rooms && s.rooms[c].createdAt >= now - RetentionWindow
    ensures forall c :: c in r.rooms ==> r.rooms[c] == s.rooms[c]
    ensures forall u :: u in r.users <==>
      u in s.users && !(s.users[u].roomCode in s.rooms && s.rooms[s.users[u].roomCode].createdAt < now - RetentionWindow)
    ensures forall u :: u in r.users ==> r.users[u] == s.users[u]
    ensures forall c :: c in r.contents <==>
      c in s.contents && !(c.roomCode in s.rooms && s.rooms[c.roomCode].createdAt < now - RetentionWindow)
    ensures forall code :: code in r.rooms ==> RoomContents(r, code) == RoomContents(s, code)
    ensures forall code :: code in r.rooms ==> MembersOf(r, code) == MembersOf(s, code)
  {
    var gone := StaleCodes(s, now);
    var r := Store(
      map c | c in s.rooms && c !in gone :: s.rooms[c],
      map u | u in s.users && s.users[u].roomCode !in gone :: s.users[u],
      OutsideRooms(s.contents, gone));
    assert forall code :: code in r.rooms ==> RoomContents(r, code) == RoomContents(s, code) by {
      forall code | code in r.rooms ensures RoomContents(r, code) == RoomContents(s, code) {
        InRoomOutside(s.contents, gone, code);
      }
    }
    assert forall code :: code in r.rooms ==> MembersOf(r, code) == MembersOf(s, code);
    r
  }

  /** Sweeping twice at the same instant leaves what sweeping once leaves. */
  lemma RemoveUnusedRoomIdempotent(s: Store, now: int)
    ensures RemoveUnusedRoom(RemoveUnusedRoom(s, now), now) == RemoveUnusedRoom(s, now)
  {
  }

  /** A room the sweep removes at `now` is removed by any later sweep too. */
  lemma RemoveUnusedRoomMonotone(s: Store, now: int, later: int, code: Code)
    requires now <= later
    requires code in s.rooms && code !in RemoveUnusedRoom(s, now).rooms
    ensures code !in RemoveUnusedRoom(s, later).rooms
  {
  }

  /** The sweep leaves no user or content behind whose room it removed. */
  lemma RemoveUnusedRoomPreservesConsistent(s: Store, now: int)
    requires Consistent(s)
    ensures Consistent(RemoveUnusedRoom(s, now))
  {
  }

  /** A room three days old is swept, one a day old is kept with its members and contents. */
  lemma RemoveUnusedRoomScenario(s: Store, now: int, oldCode: Code, newCode: Code)
    requires oldCode in s.rooms && s.rooms[oldCode].createdAt == now - 3 * DayMillis
    requires newCode in s.rooms && s.rooms[newCode].createdAt == now - DayMillis
    ensures oldCode !in RemoveUnusedRoom(s, now).rooms
    ensures MembersOf(RemoveUnusedRoom(s, now), oldCode) == {}
    ensures RoomContents(RemoveUnusedRoom(s, now), oldCode) == []
    ensures newCode in RemoveUnusedRoom(s, now).rooms
    ensures RemoveUnusedRoom(s, now).rooms[newCode] == s.rooms[newCode]
    ensures MembersOf(RemoveUnusedRoom(s, now), newCode) == MembersOf(s, newCode)
    ensures RoomContents(RemoveUnusedRoom(s, now), newCode) == RoomContents(s, newCode)
  {
  }

  /**
   * The sweep removes a user of a stale room even when that user wrote an item
   * queued in a room that is kept; the item stays and names an author that no
   * longer exists. The database's content-to-author foreign key has no delete
   * rule, so it would refuse this deletion instead.
   */
  lemma RemoveUnusedRoomOrphansAuthor(s: Store, now: int, item: Content)
    requires item in s.contents
    requires item.roomCode in s.rooms && s.rooms[item.roomCode].createdAt >= now - RetentionWindow
    requires item.userUuid in s.users
    requires s.users[item.userUuid].roomCode in s.rooms
    requires s.rooms[s.users[item.userUuid].roomCode].createdAt < now - RetentionWindow
    ensures item in RemoveUnusedRoom(s, now).contents
    ensures item.userUuid !in RemoveUnusedRoom(s, now).users
  {
  }

  /** The listening users the sweep at `now` deletes along with their rooms. */
  function SweptListeners(s: Store, now: int): set<Uuid>
  {
    set u | u in s.users && s.users[u].isListening && s.users[u].roomCode in StaleCodes(s, now)
  }

  /** The sweep deletes exactly the listening users whose room it removes from the listening set. */
  lemma RemoveUnusedRoomListeners(s: Store, now: int)
    ensures SweptListeners(s, now) <= ListeningUsers(s)
    ensures ListeningUsers(RemoveUnusedRoom(s, now)) == ListeningUsers(s) - SweptListeners(s, now)
  {
    var r := RemoveUnusedRoom(s, now);
    var stale := StaleCodes(s, now);
    forall u | u in s.users
      ensures u in r.users <==> s.users[u].roomCode !in stale
    {
      var c := s.users[u].roomCode;
      assert c in stale <==> c in s.rooms && s.rooms[c].createdAt < now - RetentionWindow;
    }
  }

  /**
   * The sweep lowers the listening count by exactly the number of listening
   * users whose room it removes; it is the only operation that lowers it.
   */
  lemma RemoveUnusedRoomActiveUsers(s: Store, now: int)
    ensures GetActiveUsers(RemoveUnusedRoom(s, now)) == GetActiveUsers(s) - |SweptListeners(s, now)|
    ensures GetActiveUsers(RemoveUnusedRoom(s, now)) <= GetActiveUsers(s)
  {
    RemoveUnusedRoomListeners(s, now);
    DifferenceCardinality(ListeningUsers(s), SweptListeners(s, now));
  }
}

=== FILE: tokens.dfy ===
/**
 * Session tokens. The service signs a payload naming a room and a user and
 * later decodes it without verifying the signature, so the model keeps only
 * the payload. Signing is the constructor and decoding its destructor:
 * `Decode(Sign(p)) == p` and `Sign(Decode(t)) == t` hold by definition.
 */
module Tokens {
  import opened Entities

  /** What a token carries. */
  datatype Payload = Payload(roomCode: Code, userUuid: Uuid)

  /** A token as the caller presents it; `NoToken` is the empty or missing cookie. */
  datatype Token = NoToken | Tok(roomCode: Code, userUuid: Uuid)

  function Sign(p: Payload): Token
  {
    Tok(p.roomCode, p.userUuid)
  }

  function Decode(t: Token): Payload
    requires t.Tok?
  {
    Payload(t.roomCode, t.userUuid)
  }
}
